=== FILE: README.md ===
# Lexicon in Dafny

A model of the core of Lexicon, an iOS vocabulary app, with proofs about it:

- **Explore.** Exploring the bundled catalog (`ExploreWordsView`). The candidate list leaves out words the user already owns or has hidden. A cursor walks the list with Skip, Learn and Hide, and hidden words persist as a set.
- **Study.** The multiple-choice quiz (`StudyModeView`). It has question generation, the answer and next-question state machine, and the colour rule for each option button.
- **Collection.** The view-model (`LexiconViewModel`): load, shuffle, add, delete-current, save and load. It also covers the delete closure of `ContentView`.
- **Add-word form.** The form (`AddWordView`): validation, normalisation of what is saved, and the part-of-speech list.
- **Widget.** The home-screen widget's provider (`LexiconWidget`): picking a random user word or the fallback, the placeholder, and the 24-slot timeline.
- **Entry.** The stored entry (`WordEntry`): a fresh identifier per instance, four coded fields, and the identifier is never persisted.

The modules follow the app's files:

| module | models |
|---|---|
| `Collections` | Swift's `remove(at:)`, `prefix`, `shuffled()`, `randomElement()` and `Set` → `Array` |
| `Text` | `trimmingCharacters(in: .whitespacesAndNewlines)` and `lowercased()` |
| `Entries` | `WordEntry` and its coding keys |
| `Persistence` | the `UserDefaults` store seen through the JSON coder |
| `Explore` | `ExploreWordsView` |
| `Study` | `StudyModeView` |
| `Lexicon` | `LexiconViewModel` and `ContentView.onDeleteWord` |
| `AddWord` | `AddWordView` |
| `Widget` | `LexiconWidget`'s `Provider` |
| `Flows` | properties that span several screens |

Randomness is a parameter:

- **`shuffled()`** is `Shuffle(xs, seed)`. Each value of the seed picks one of the remaining elements. `ShuffleReachesEveryPermutation` proves that the seeds reach every permutation, so the model commits to "some permutation" and to nothing narrower.
- **`randomElement()`** is `PickOne(xs, roll)`. `PickOneReachesAll` proves that every element can be picked.
- **A fresh `UUID()`** is an identifier passed in by the caller.
- **The iteration order of a Swift `Set`** is a shuffle seed.

The store is a map from key to `Blob`. A `Blob` is an array of decoded JSON objects, an array of strings, or bytes that do not decode.

The model keeps these behaviours of the code:

- Deleting by word compares words with case-sensitive `==` (`firstIndex(where: { $0.word == ... })`). It removes only the first match, so deleting is idempotent only for a word that occurs once (`Lexicon.DeleteWordTwice`).
- The quiz keeps no score.
- A question has `1 + min(3, n)` options, where `n` is the number of user entries whose word differs from the answer. Options can repeat when the collection holds duplicate words. Four different options are guaranteed only when the user words are pairwise different (`Study.FourDistinctOptions`, `Flows.QuizOverDistinctWords`).
- Hiding records the lower-cased word, and a later session filters the catalog by the lower-cased word. Hiding hands nothing to the collection.

## Model

| member | source | states |
|---|---|---|
| Entries.Encode | LexiconWidget/Entry.swift:13-15 | the persisted object holds exactly the four coding keys, each with its field, and no `id`; `Entries.DecodeEncode` is its inverse |
| Entries.Decode | LexiconWidget/Entry.swift:6-22 | decoding succeeds exactly when all four coding keys are present; any other key (an `id` in particular) is ignored; the instance gets a fresh identifier and the four fields read from the object |
| Entries.DecodeEncode | LexiconWidget/Entry.swift:7-15 | decoding an encoded entry gives back its four fields under the fresh identifier |
| Entries.EncodeIgnoresId | LexiconWidget/Entry.swift:7-15 | the identifier never reaches the persisted form |
| Entries.SameFieldsDifferentInstances | LexiconWidget/Entry.swift:6-8 | two instances with the same four fields but different identifiers are unequal values with equal persisted forms |
| Entries.DecodeAll | Lexicon/LexiconViewModel.swift:76-81 | decoding an array is all or nothing: it succeeds exactly when every object has all coding keys, and then the i-th entry is the i-th object decoded |
| Entries.DecodeAllEncodeAll | Lexicon/LexiconViewModel.swift:62-82 | decoding an encoded list succeeds, and every position keeps its four fields under a fresh identifier |
| Entries.FirstIndexOfWord | Lexicon/LexiconViewModel.swift:48 | the index found holds the word and no earlier index does; nothing is found exactly when no entry has the word |
| Persistence.LoadUserWords | Lexicon/LexiconViewModel.swift:71-82 | a missing key or a value that does not decode loads as the empty list; otherwise the decoded list |
| Persistence.SaveUserWords | Lexicon/LexiconViewModel.swift:62-69 | the whole encoded list is written under the user-words key; every other key keeps its value |
| Persistence.SaveHiddenList | Lexicon/ExploreWordsView.swift:211-218 | the string list is written under the hidden-words key; every other key keeps its value |
| Persistence.LoadAfterSave | Lexicon/LexiconViewModel.swift:62-82 | a load after a save gives a list of the same length with the same four fields at each position |
| Persistence.KeysIndependent | Lexicon/ExploreWordsView.swift:211-218 | writing the hidden words leaves the user words as loaded, and writing the user words leaves the hidden words as loaded |
| Text.Trim | Lexicon/AddWordView.swift:93-95 | the result is no longer than the input and has no whitespace at either end |
| Text.TrimBounds | Lexicon/AddWordView.swift:100-103 | the trimmed text is a contiguous slice of the input, and everything cut off on either side is whitespace |
| Text.TrimEmptyIffAllSpace | Lexicon/AddWordView.swift:92-96 | trimming leaves nothing exactly when the text is all whitespace |
| Text.TrimOfTrimmed | Lexicon/AddWordView.swift:100-103 | text already trimmed at both ends is left as it is |
| Text.TrimIdempotent | Lexicon/AddWordView.swift:100-103 | trimming twice is trimming once |
| Text.Lower | Lexicon/AddWordView.swift:100 | same length, each character mapped to its lower-case form, and no upper-case letter remains |
| Text.LowerIdempotent | Lexicon/ExploreWordsView.swift:133-138 | lower-casing twice is lower-casing once |
| Text.LowerKeepsTrimmed | Lexicon/AddWordView.swift:100 | lower-casing trimmed text keeps it trimmed, and keeps non-empty text non-empty |
| AddWord.Open | Lexicon/AddWordView.swift:12-20 | the sheet opens with empty text fields and "noun" selected, which is one of the listed parts of speech, and nothing saved |
| AddWord.Edit | Lexicon/AddWordView.swift:33-59 | typing into a field sets exactly that field to the text; the other two fields, the selection and the saved entries keep their values |
| AddWord.Choose | Lexicon/AddWordView.swift:38-44 | the picker only ever selects a listed part of speech and leaves the text fields alone |
| AddWord.IsFormValid | Lexicon/AddWordView.swift:92-96 | the form is valid exactly when each of the three text fields has a character that is not whitespace |
| AddWord.NewEntry | Lexicon/AddWordView.swift:99-104 | the new entry has the fresh identifier and the selected part of speech; its text fields are trimmed and its word has no upper-case letter; a field comes out empty exactly when it was all whitespace; `AddWord.NewEntryIsTrimmedInput` pins the saved text to the typed text |
| AddWord.NewEntryIsTrimmedInput | Lexicon/AddWordView.swift:99-104 | the saved definition and example are the typed text with only surrounding whitespace cut off, and the saved word is the typed word so cut and lower-cased character by character |
| AddWord.NewEntryWellFormed | Lexicon/AddWordView.swift:98-104 | a valid form builds an entry whose word is non-empty, trimmed and free of upper-case letters, whose definition and example are non-empty and trimmed, and whose part of speech is listed |
| AddWord.SaveWord | Lexicon/AddWordView.swift:98-107 | the collection receives the new entry exactly once, the earlier ones stay as they were, and the sheet closes with the fields and the selection left as they were |
| AddWord.PressSave | Lexicon/AddWordView.swift:82-85 | Save does nothing while the form is invalid; every entry handed out stays well-formed |
| AddWord.SaveKeepsInvariant | Lexicon/AddWordView.swift:98-106 | saving a valid form keeps every entry handed out well-formed |
| AddWord.InvariantKept | Lexicon/AddWordView.swift:12-44 | opening, typing and picking keep a listed part of speech selected and the saved entries well-formed |
| AddWord.NormalisationStable | Lexicon/AddWordView.swift:98-104 | re-entering a saved entry's own fields saves the same four strings again |
| Explore.HiddenWords | Lexicon/ExploreWordsView.swift:195-201 | no hidden words when the key is missing or its value does not decode; otherwise exactly the decoded strings |
| Explore.HiddenArray | Lexicon/ExploreWordsView.swift:204 | the array holds exactly the hidden words, each once |
| Explore.AddToHiddenWords | Lexicon/ExploreWordsView.swift:203-209 | afterwards the hidden set is the old set plus the word; an already hidden word leaves the store untouched; the stored list never repeats a word; other keys are untouched |
| Explore.UserWordSet | Lexicon/ExploreWordsView.swift:133 | the set holds exactly the lower-cased words of the owned entries |
| Explore.Candidates | Lexicon/ExploreWordsView.swift:136-139 | a catalog entry is a candidate exactly when its lower-cased word is neither owned nor hidden; eligible entries keep their multiplicity |
| Explore.CandidatesKeepOrder | Lexicon/ExploreWordsView.swift:136-139 | the candidates appear in catalog order |
| Explore.Start | Lexicon/ExploreWordsView.swift:129-142 | a session starts on the first candidate, and the list is `Candidates`, the catalog filtered in order; an entry is offered exactly when it is in the catalog and its lower-cased word is neither owned nor hidden |
| Explore.Skip | Lexicon/ExploreWordsView.swift:144-150 | the next item is presented, or, past the last one, the list is emptied; the list is never reordered |
| Explore.SkipWalk | Lexicon/ExploreWordsView.swift:144-150 | repeated skipping visits the remaining candidates in order and then stays exhausted, never wrapping around |
| Explore.SkipExhausted | Lexicon/ExploreWordsView.swift:147-150 | an exhausted session stays exhausted |
| Explore.RemoveCurrent | Lexicon/ExploreWordsView.swift:164-169 | the item under the cursor is removed; the cursor stays on an item, and moves back only when it fell off the end |
| Explore.Learn | Lexicon/ExploreWordsView.swift:157-170 | with the cursor on an item, exactly that entry is handed to the collection; the list is `RemoveCurrent` of the old one, so it loses exactly that position, keeps the others in order, and a cursor past the end moves to the new last item; otherwise nothing happens |
| Explore.Hide | Lexicon/ExploreWordsView.swift:176-189 | with the cursor on an item, its lower-cased word joins the hidden set and the list is `RemoveCurrent` of the old one, so exactly that position goes, the others keep their order and the cursor is clamped; otherwise nothing changes; other store keys are untouched |
| Explore.HiddenNotPresentedAgain | Lexicon/ExploreWordsView.swift:129-189 | after Hide, no catalog entry spelled the same up to case is offered by a later session |
| Study.Others | Lexicon/StudyModeView.swift:138 | the other entries are exactly the user entries whose word differs from the answer |
| Study.OthersWords | Lexicon/StudyModeView.swift:138 | filtering removes every copy of the answer word from the word multiset and nothing else, so as many entries go as the collection has copies of it |
| Study.DistractorWords | Lexicon/StudyModeView.swift:139-140 | the distractor words are a sub-multiset of the other entries' words |
| Study.MakeQuestion | Lexicon/StudyModeView.swift:134-146 | a question carries the entry's definition and word, and its options are well-formed |
| Study.OptionsWellFormed | Lexicon/StudyModeView.swift:135-145 | the answer occurs exactly once among the options; the other options come from other entries' words, none more often than it occurs; there are `1 + min(3, others)` options |
| Study.FourDistinctOptions | Lexicon/StudyModeView.swift:131-145 | with at least four pairwise different words, a question has four options, all different |
| Study.QuestionsInEntryOrder | Lexicon/StudyModeView.swift:134-146 | one well-formed question per entry, taking the entry's definition and word |
| Study.GenerateQuestions | Lexicon/StudyModeView.swift:130-147 | no questions below four words; otherwise one question per user word, as a permutation of the per-entry questions, each well-formed |
| Study.QuestionFromOneEntry | Lexicon/StudyModeView.swift:134-147 | every question takes its definition and its answer from one and the same user entry |
| Study.AnswersAreTheUserWords | Lexicon/StudyModeView.swift:134-147 | the correct answers of a quiz are the user words, each as often as it occurs |
| Study.Begin | Lexicon/StudyModeView.swift:130-151 | the session's questions are the generated ones, the first is current and nothing is selected; with fewer than four words there is no question |
| Study.Tap | Lexicon/StudyModeView.swift:94 | while a result is shown a tap changes nothing; otherwise it is exactly `selectAnswer`; it never closes the session; the state stays consistent |
| Study.SelectAnswer | Lexicon/StudyModeView.swift:153-158 | the answer is recorded and judged correct exactly when it equals the current answer; nothing happens without a current question; the state stays consistent |
| Study.SecondTapIgnored | Lexicon/StudyModeView.swift:94 | once a result is shown, a further tap changes nothing |
| Study.NextQuestion | Lexicon/StudyModeView.swift:165-175 | before the last question it moves to the next one with the answer cleared; on the last one the session closes without moving |
| Study.SelectionFeedback | Lexicon/StudyModeView.swift:177-203 | in a consistent state the background and border show the correct option as right, a wrongly chosen option as wrong and everything else as neutral, and show everything as neutral before a result |
| Study.TextFeedback | Lexicon/StudyModeView.swift:205-217 | the text colour follows the same intended rule as the background |
| Lexicon.Initial | Lexicon/LexiconViewModel.swift:11-14 | the new view-model is consistent and loading |
| Lexicon.LoadWords | Lexicon/LexiconViewModel.swift:18-26 | both lists become what `loadUserWords` decodes from the store (empty on a missing key or a decoding failure; a saved list reloads with its four fields), a word from it is shown, and loading ends |
| Lexicon.ShuffleWord | Lexicon/LexiconViewModel.swift:28-35 | nothing happens on an empty list; otherwise one of the words is shown and the lists are unchanged |
| Lexicon.AddWord | Lexicon/LexiconViewModel.swift:37-44 | the entry is appended to both lists, persisted and shown, with no duplicate check; other store keys and the loading flag are untouched |
| Lexicon.DeleteCurrentWord | Lexicon/LexiconViewModel.swift:46-60 | without a shown entry, or with no user word equal to it, nothing happens; otherwise the first equal user word leaves both lists, the list is persisted, and a remaining word is shown, or nothing when none remains; the other store keys (the hidden words) and the loading flag are untouched |
| Lexicon.DeleteWord | Lexicon/ContentView.swift:82-94 | the first user word equal to the given word leaves both lists and the list is persisted; the shown entry is re-picked only when it carries that word; other store keys and the loading flag are untouched |
| Lexicon.KeepsShown | Lexicon/ContentView.swift:89-92 | a shown entry that does not carry the deleted word stays among the words |
| Lexicon.RemoveOnlyCopy | Lexicon/LexiconViewModel.swift:48-51 | removing a word that occurs once leaves no entry with that word |
| Lexicon.DeleteWordTwice | Lexicon/ContentView.swift:84-93 | deleting a word that occurs at most once twice is the same as deleting it once |
| Widget.Placeholder | LexiconWidget/LexiconWidget.swift:26-33 | the placeholder shows the fallback word, part of speech and definition, but with a different example, so it is a different entry |
| Widget.RandomUserWord | LexiconWidget/LexiconWidget.swift:55-76 | a stored user word is shown when there is one; otherwise (missing key or decoding failure included) the fallback is shown |
| Widget.EveryUserWordCanBeShown | LexiconWidget/LexiconWidget.swift:55-57 | every stored user word can be the one shown |
| Widget.GetTimeline | LexiconWidget/LexiconWidget.swift:40-53 | 24 entries at minute offsets 0, 5, …, 115, strictly increasing and inside the two hours, each showing a user word or the fallback, reloaded at the end |
| Collections.Shuffle | Lexicon/StudyModeView.swift:139 | `shuffled()` returns a permutation of its input |
| Collections.ShuffleReachesEveryPermutation | Lexicon/StudyModeView.swift:147 | every permutation of the input is the result of some shuffle |
| Collections.ShuffleMap | Lexicon/StudyModeView.swift:139-140 | shuffling commutes with mapping, since the draws depend only on the length |
| Collections.PickOne | Lexicon/LexiconViewModel.swift:24 | `randomElement()` is nothing exactly on an empty list, and otherwise an element of it |
| Collections.PickOneReachesAll | Lexicon/LexiconViewModel.swift:30 | every element of a non-empty list can be picked |
| Collections.RemoveAt | Lexicon/ExploreWordsView.swift:164 | `remove(at:)` drops exactly the element at that position; the others keep their order |
| Collections.Take | Lexicon/StudyModeView.swift:139 | `prefix(3)` gives the first `min(3, count)` elements |
| Collections.Dedup | Lexicon/ExploreWordsView.swift:200 | `Set(hiddenWords)` keeps every value once and adds none |
| Flows.LearnedNotOfferedAgain | Lexicon/ExploreWordsView.swift:129-170 | an entry learned in one session, then added to the collection, is not offered by the next session, nor is any catalog entry spelled the same up to case |
| Flows.ReloadSeesAddedWord | Lexicon/LexiconViewModel.swift:18-44 | after an add, a reload sees the new entry's four fields at the end of the list |
| Flows.QuizOverDistinctWords | Lexicon/StudyModeView.swift:130-147 | with four or more pairwise different user words, every question has four different options, one of them its answer |

## Left out

- SwiftUI layout, navigation, colours as concrete values, haptic feedback, speech, loading spinners and the `async` scheduling of the loads are not modelled. Only the state they change is modelled.
- `WordService` (the bundled catalog file) is not part of this model. The catalog is a parameter of `Explore.Start`.
- JSON bytes are not modelled. The store holds decoded objects and string arrays, and bytes that do not decode are one `Unreadable` value. Encoder failures, which only print, are not modelled.
- The app and the widget both read `UserDefaults.standard` (Lexicon/LexiconViewModel.swift:65 and :72, LexiconWidget/LexiconWidget.swift:66), and no shared suite is named anywhere. An extension's standard defaults are its own domain, so as written the widget does not see the words the app saves and shows the fallback. The widget's `store` parameter stands for the extension's own defaults; the model does not make it share the app's store.
- The app target's own `Entry` type is not part of this model. It is taken to have the same four coded fields and fresh identifier as `WordEntry`.
- Text.Lower: covers ASCII letters only. Foundation's full Unicode case mapping is not modelled.
- Text.Trim: the whitespace class is the ASCII spaces and line breaks plus NEL and NO-BREAK SPACE, not Foundation's full Unicode set. Swift's `==` on strings, which compares canonical equivalents as equal, is modelled as sequence equality.
- Widget.GetTimeline: dates are minute offsets from the current time. Calendar arithmetic and `getSnapshot`, which only picks one word, are not modelled.
- Lexicon.DeleteCurrentWord and Lexicon.DeleteWord: require `words` to be at least as long as `userWords`. The source removes the index found in `userWords` from `words` as well, and traps only when that index is not below `words.count` (Lexicon/LexiconViewModel.swift:51, Lexicon/ContentView.swift:86). The requirement is a simplification: the two lists are always changed in lockstep, so it always holds.
- The quiz's empty-state and "Finish Study" screens are not modelled. Closing the session is the `presented` flag of `Study.Session`.

=== FILE: add_word.dfy ===
/** The add-word form (`AddWordView`): three text fields and a part-of-speech
    picker; Save is enabled only for a valid form, and saving normalises the
    fields, hands the new entry to the collection once and closes the sheet. */
module AddWord {
  import opened Text
  import opened Entries

  /** The picker's parts of speech, in display order. */
  const WordFunctions: seq<string> :=
    ["noun", "verb", "adjective", "adverb", "pronoun", "preposition", "conjunction", "interjection"]

  const DefaultFunction: string := "noun"

  /** `saved` logs the entries handed to `onSave`, oldest first. */
  datatype Sheet = Sheet(
    word: string,
    selectedFunction: string,
    definition: string,
    example: string,
    presented: bool,
    saved: seq<Entry>)

  datatype Field = WordField | DefinitionField | ExampleField

  /** The sheet as it opens: empty fields, "noun" selected. */
  function Open(): (s: Sheet)
    ensures s.selectedFunction == DefaultFunction && s.selectedFunction in WordFunctions
    ensures s.word == "" && s.definition == "" && s.example == ""
    ensures s.presented && s.saved == []
  {
    Sheet("", DefaultFunction, "", "", true, [])
  }

  /** Typing into one text field replaces its contents. */
  function Edit(s: Sheet, field: Field, text: string): (r: Sheet)
    ensures r.selectedFunction == s.selectedFunction && r.saved == s.saved && r.presented == s.presented
    ensures field == WordField ==> r.word == text && r.definition == s.definition && r.example == s.example
    ensures field == DefinitionField ==> r.definition == text && r.word == s.word && r.example == s.example
    ensures field == ExampleField ==> r.example == text && r.word == s.word && r.definition == s.definition
  {
    match field
    case WordField => s.(word := text)
    case DefinitionField => s.(definition := text)
    case ExampleField => s.(example := text)
  }

  /** The picker offers only the listed parts of speech. */
  function Choose(s: Sheet, k: nat): (r: Sheet)
    requires k < |WordFunctions|
    ensures r.selectedFunction in WordFunctions
    ensures r.word == s.word && r.definition == s.definition && r.example == s.example
    ensures r.saved == s.saved && r.presented == s.presented
  {
    s.(selectedFunction := WordFunctions[k])
  }

  /** `isFormValid`: each of the three fields has a character that is not
      whitespace. */
  function IsFormValid(s: Sheet): (valid: bool)
    ensures valid <==> !AllSpace(s.word) && !AllSpace(s.definition) && !AllSpace(s.example)
  {
    TrimEmptyIffAllSpace(s.word);
    TrimEmptyIffAllSpace(s.definition);
    TrimEmptyIffAllSpace(s.example);
    Trim(s.word) != [] && Trim(s.definition) != [] && Trim(s.example) != []
  }

  /** What a saved entry looks like: no surrounding whitespace anywhere, a
      lower-case word, non-empty text fields, a listed part of speech. */
  predicate WellFormedEntry(e: Entry) {
    && e.word != [] && IsTrimmed(e.word) && NoUpper(e.word)
    && e.definition != [] && IsTrimmed(e.definition)
    && e.example != [] && IsTrimmed(e.example)
    && e.wordFunction in WordFunctions
  }

  /** The entry `saveWord` builds, with the fresh identifier `id`: the
      selected part of speech, every text field trimmed and the word
      lower-cased; a field comes out empty exactly when it was all
      whitespace. */
  function NewEntry(s: Sheet, id: Uuid): (e: Entry)
    ensures e.id == id && e.wordFunction == s.selectedFunction
    ensures IsTrimmed(e.word) && NoUpper(e.word) && |e.word| <= |s.word|
    ensures IsTrimmed(e.definition) && |e.definition| <= |s.definition|
    ensures IsTrimmed(e.example) && |e.example| <= |s.example|
    ensures e.word == [] <==> AllSpace(s.word)
    ensures e.definition == [] <==> AllSpace(s.definition)
    ensures e.example == [] <==> AllSpace(s.example)
  {
    TrimEmptyIffAllSpace(s.word);
    TrimEmptyIffAllSpace(s.definition);
    TrimEmptyIffAllSpace(s.example);
    LowerKeepsTrimmed(Trim(s.word));
    Entry(id, Lower(Trim(s.word)), s.selectedFunction, Trim(s.definition), Trim(s.example))
  }

  /** The saved text is the typed text with its surrounding whitespace cut
      off, and nothing more: the definition and the example are the slices
      `[di..dj]` and `[xi..xj]` of what was typed, and the word is the slice
      `[wi..wj]` lower-cased character by character. Only whitespace lies
      outside each slice, and NewEntry's contract says the slices do not
      start or end with whitespace. */
  lemma NewEntryIsTrimmedInput(s: Sheet, id: Uuid) returns (wi: nat, wj: nat, di: nat, dj: nat, xi: nat, xj: nat)
    ensures wi <= wj <= |s.word| && AllSpace(s.word[..wi]) && AllSpace(s.word[wj..])
    ensures |NewEntry(s, id).word| == wj - wi
    ensures forall k :: 0 <= k < wj - wi ==> NewEntry(s, id).word[k] == LowerChar(s.word[wi + k])
    ensures di <= dj <= |s.definition| && AllSpace(s.definition[..di]) && AllSpace(s.definition[dj..])
    ensures NewEntry(s, id).definition == s.definition[di..dj]
    ensures xi <= xj <= |s.example| && AllSpace(s.example[..xi]) && AllSpace(s.example[xj..])
    ensures NewEntry(s, id).example == s.example[xi..xj]
  {
    wi, wj := TrimBounds(s.word);
    di, dj := TrimBounds(s.definition);
    xi, xj := TrimBounds(s.example);
    LowerOfSlice(s.word, wi, wj);
  }

  /** Lower-casing a slice, position by position. */
  lemma LowerOfSlice(t: string, i: nat, j: nat)
    requires i <= j <= |t|
    ensures |Lower(t[i..j])| == j - i
    ensures forall k :: 0 <= k < j - i ==> Lower(t[i..j])[k] == LowerChar(t[i + k])
  {
    forall k | 0 <= k < j - i ensures Lower(t[i..j])[k] == LowerChar(t[i + k]) {
      assert t[i..j][k] == t[i + k];
    }
  }

  /** A valid form with a listed part of speech yields a well-formed entry. */
  lemma NewEntryWellFormed(s: Sheet, id: Uuid)
    requires IsFormValid(s) && s.selectedFunction in WordFunctions
    ensures WellFormedEntry(NewEntry(s, id))
  {
  }

  /** `saveWord`: `onSave` receives the new entry exactly once and the sheet
      closes; the fields are left as they were. */
  function SaveWord(s: Sheet, id: Uuid): (r: Sheet)
    ensures |r.saved| == |s.saved| + 1 && r.saved[..|s.saved|] == s.saved
    ensures r.saved[|s.saved|] == NewEntry(s, id)
    ensures !r.presented
    ensures r.word == s.word && r.selectedFunction == s.selectedFunction
    ensures r.definition == s.definition && r.example == s.example
  {
    s.(saved := s.saved + [NewEntry(s, id)], presented := false)
  }

  /** The Save button, disabled while the form is invalid. */
  function PressSave(s: Sheet, id: Uuid): (r: Sheet)
    ensures !IsFormValid(s) ==> r == s
    ensures IsFormValid(s) ==> r == SaveWord(s, id)
    ensures Invariant(s) ==> Invariant(r)
  {
    if IsFormValid(s) then
      SaveKeepsInvariant(s, id);
      SaveWord(s, id)
    else s
  }

  lemma SaveKeepsInvariant(s: Sheet, id: Uuid)
    requires IsFormValid(s)
    ensures Invariant(s) ==> Invariant(SaveWord(s, id))
  {
    if Invariant(s) {
      NewEntryWellFormed(s, id);
      AppendWellFormed(s.saved, NewEntry(s, id));
      assert SaveWord(s, id).saved == s.saved + [NewEntry(s, id)];
    }
  }

  lemma AppendWellFormed(saved: seq<Entry>, e: Entry)
    requires forall i :: 0 <= i < |saved| ==> WellFormedEntry(saved[i])
    requires WellFormedEntry(e)
    ensures forall i :: 0 <= i < |saved + [e]| ==> WellFormedEntry((saved + [e])[i])
  {
  }

  /** Kept by every action on the sheet: a listed part of speech is
      selected and every entry handed out is well-formed. */
  predicate Invariant(s: Sheet) {
    s.selectedFunction in WordFunctions && forall i :: 0 <= i < |s.saved| ==> WellFormedEntry(s.saved[i])
  }

  lemma InvariantKept(s: Sheet, field: Field, text: string, k: nat)
    requires Invariant(s) && k < |WordFunctions|
    ensures Invariant(Open())
    ensures Invariant(Edit(s, field, text))
    ensures Invariant(Choose(s, k))
  {
  }

  /** Normalisation is stable: a form filled with a saved entry's own
      fields saves the same four strings again. */
  lemma NormalisationStable(e: Entry, id: Uuid, presented: bool)
    requires IsTrimmed(e.word) && IsTrimmed(e.definition) && IsTrimmed(e.example)
    requires NoUpper(e.word)
    ensures NewEntry(Sheet(e.word, e.wordFunction, e.definition, e.example, presented, []), id) == e.(id := id)
  {
    var n := NewEntry(Sheet(e.word, e.wordFunction, e.definition, e.example, presented, []), id);
    TrimOfTrimmed(e.word);
    LowerOfLower(e.word);
    assert n.word == e.word;
    TrimOfTrimmed(e.definition);
    assert n.definition == e.definition;
    TrimOfTrimmed(e.example);
    assert n.example == e.example;
    assert n.wordFunction == e.wordFunction && n.id == id;
  }
}

=== FILE: collections.dfy ===
/** Sequence helpers shared by every part of the model: an optional value,
    element-wise mapping, positional removal, prefixes, duplicate removal, and
    the two random primitives of the Swift standard library (`randomElement`
    and `shuffled`), with the random source made an explicit argument. */
module Collections {

  datatype Option<+T> = None | Some(value: T) {
    /** The wrapped value, or `default` when there is none (Swift's `??`). */
    function GetOr(default: T): T {
      match this
      case Some(v) => v
      case None => default
    }
  }

  /** Every value occurs at most once. */
  ghost predicate Distinct<T>(s: seq<T>) {
    forall x | x in s :: multiset(s)[x] <= 1
  }

  /** Element-wise image of a sequence (Swift's `map`). */
  function MapSeq<T, U>(f: T -> U, s: seq<T>): (r: seq<U>)
    ensures |r| == |s|
    ensures forall i :: 0 <= i < |s| ==> r[i] == f(s[i])
  {
    seq(|s|, i requires 0 <= i < |s| => f(s[i]))
  }

  lemma MapSeqAppend<T, U>(f: T -> U, a: seq<T>, b: seq<T>)
    ensures MapSeq(f, a + b) == MapSeq(f, a) + MapSeq(f, b)
  {
    assert forall i :: 0 <= i < |a + b| ==> MapSeq(f, a + b)[i] == (MapSeq(f, a) + MapSeq(f, b))[i];
  }

  lemma MapSeqPrefix<T, U>(f: T -> U, s: seq<T>, n: nat)
    requires n <= |s|
    ensures MapSeq(f, s[..n]) == MapSeq(f, s)[..n]
  {
  }

  /** The sequence with position `i` removed (Swift's `remove(at:)`); the
      others keep their relative order. */
  function RemoveAt<T>(s: seq<T>, i: nat): (r: seq<T>)
    requires i < |s|
    ensures |r| == |s| - 1
    ensures forall j :: 0 <= j < i ==> r[j] == s[j]
    ensures forall j :: i <= j < |r| ==> r[j] == s[j + 1]
    ensures multiset(r) == multiset(s) - multiset{s[i]}
  {
    assert s == s[..i] + [s[i]] + s[i+1..];
    s[..i] + s[i+1..]
  }

  /** Removing one position keeps every value that differs from the removed one. */
  lemma RemoveAtKeepsOthers<T>(s: seq<T>, i: nat, x: T)
    requires i < |s|
    requires x in s && x != s[i]
    ensures x in RemoveAt(s, i)
  {
    assert x in multiset(s);
    assert x in multiset(RemoveAt(s, i));
  }

  lemma MapSeqRemoveAt<T, U>(f: T -> U, s: seq<T>, i: nat)
    requires i < |s|
    ensures MapSeq(f, RemoveAt(s, i)) == RemoveAt(MapSeq(f, s), i)
  {
  }

  /** The first `n` elements, or all of them when there are fewer (Swift's `prefix`). */
  function Take<T>(s: seq<T>, n: nat): (r: seq<T>)
    ensures |r| == if n < |s| then n else |s|
    ensures r == s[..|r|]
    ensures multiset(r) <= multiset(s)
  {
    var k := if n < |s| then n else |s|;
    assert s == s[..k] + s[k..];
    s[..k]
  }

  /** The distinct values of `s`, each at its first occurrence. */
  function Dedup<T(==)>(s: seq<T>): (r: seq<T>)
    ensures forall x :: x in r ==> x in s
    ensures forall x :: x in s ==> x in r
    ensures Distinct(r)
  {
    if s == [] then []
    else
      var init := Dedup(s[..|s| - 1]);
      var last := s[|s| - 1];
      assert s == s[..|s| - 1] + [last];
      if last in init then init else init + [last]
  }

  /** The index a random draw selects among `n > 0` candidates. */
  function Draw(seed: seq<nat>, n: nat): (k: nat)
    requires n > 0
    ensures k < n
  {
    if seed == [] then 0 else seed[0] % n
  }

  /** A seed value already below `n` selects itself. */
  lemma DrawSmall(seed: seq<nat>, n: nat)
    requires n > 0 && seed != [] && seed[0] < n
    ensures Draw(seed, n) == seed[0]
  {
  }

  function Rest(seed: seq<nat>): (r: seq<nat>) {
    if seed == [] then [] else seed[1..]
  }

  /** Swift's `randomElement()`: nothing on an empty sequence, otherwise the
      element the roll selects. */
  function PickOne<T>(s: seq<T>, roll: nat): (r: Option<T>)
    ensures r.None? <==> |s| == 0
    ensures r.Some? ==> r.value in s
  {
    if s == [] then None else Some(s[roll % |s|])
  }

  /** Every element of a non-empty sequence is a possible pick. */
  lemma PickOneReachesAll<T>(s: seq<T>, i: nat)
    requires i < |s|
    ensures PickOne(s, i) == Some(s[i])
  {
    assert i == 0 * |s| + i;
  }

  /** Swift's `shuffled()`: draw without replacement, one element per seed
      value; the seed plays the role of the random number generator. */
  function Shuffle<T>(xs: seq<T>, seed: seq<nat>): (r: seq<T>)
    ensures |r| == |xs|
    ensures multiset(r) == multiset(xs)
    decreases |xs|
  {
    if xs == [] then []
    else
      var k := Draw(seed, |xs|);
      [xs[k]] + Shuffle(RemoveAt(xs, k), Rest(seed))
  }

  lemma ShuffleStep<T>(xs: seq<T>, seed: seq<nat>)
    requires xs != []
    ensures Shuffle(xs, seed) == [xs[Draw(seed, |xs|)]] + Shuffle(RemoveAt(xs, Draw(seed, |xs|)), Rest(seed))
  {
  }

  /** Every rearrangement of `xs` is the result of some seed, so `Shuffle`
      stands for "some permutation" and nothing narrower; the lemma
      constructs that seed. */
  lemma {:induction false} ShuffleReachesEveryPermutation<T>(xs: seq<T>, r: seq<T>) returns (seed: seq<nat>)
    requires multiset(r) == multiset(xs)
    ensures Shuffle(xs, seed) == r
    decreases |xs|
  {
    if xs == [] {
      assert |r| == |multiset(r)| == 0;
      seed := [];
    } else {
      assert r != [] by {
        assert |r| == |multiset(r)| == |multiset(xs)| == |xs|;
      }
      var k := IndexOf(xs, r[0]);
      var rest := RemoveAt(xs, k);
      assert multiset(r[1..]) == multiset(rest) by {
        assert r == [r[0]] + r[1..];
        assert multiset(r[1..]) == multiset(r) - multiset{r[0]};
        assert multiset(rest) == multiset(xs) - multiset{xs[k]};
      }
      var seed' := ShuffleReachesEveryPermutation(rest, r[1..]);
      seed := [k] + seed';
      DrawSmall(seed, |xs|);
      assert Rest(seed) == seed' by {
        assert seed[1..] == seed';
      }
      ShuffleStep(xs, seed);
      assert r == [r[0]] + r[1..];
    }
  }

  /** A position holding `x`, for an `x` that occurs in `s`. */
  lemma IndexOf<T>(s: seq<T>, x: T) returns (k: nat)
    requires x in multiset(s)
    ensures k < |s| && s[k] == x
  {
    assert x in s;
    k :| 0 <= k < |s| && s[k] == x;
  }

  /** Shuffling commutes with mapping: the draws depend only on the length. */
  lemma {:induction false} ShuffleMap<T, U>(f: T -> U, xs: seq<T>, seed: seq<nat>)
    ensures MapSeq(f, Shuffle(xs, seed)) == Shuffle(MapSeq(f, xs), seed)
    decreases |xs|
  {
    if xs != [] {
      var rest := RemoveAt(xs, Draw(seed, |xs|));
      ShuffleMap(f, rest, Rest(seed));
      ShuffleMapStep(f, xs, seed);
    }
  }

  /** The inductive step of ShuffleMap: the first draw picks the same
      position in both sequences. */
  lemma ShuffleMapStep<T, U>(f: T -> U, xs: seq<T>, seed: seq<nat>)
    requires xs != []
    requires MapSeq(f, Shuffle(RemoveAt(xs, Draw(seed, |xs|)), Rest(seed)))
             == Shuffle(MapSeq(f, RemoveAt(xs, Draw(seed, |xs|))), Rest(seed))
    ensures MapSeq(f, Shuffle(xs, seed)) == Shuffle(MapSeq(f, xs), seed)
  {
    MappedShuffleHead(f, xs, seed);
    ShuffledMapHead(f, xs, seed);
  }

  lemma MappedShuffleHead<T, U>(f: T -> U, xs: seq<T>, seed: seq<nat>)
    requires xs != []
    ensures MapSeq(f, Shuffle(xs, seed))
            == [f(xs[Draw(seed, |xs|)])] + MapSeq(f, Shuffle(RemoveAt(xs, Draw(seed, |xs|)), Rest(seed)))
  {
    ShuffleStep(xs, seed);
    MapSeqCons(f, xs[Draw(seed, |xs|)], Shuffle(RemoveAt(xs, Draw(seed, |xs|)), Rest(seed)));
  }

  lemma ShuffledMapHead<T, U>(f: T -> U, xs: seq<T>, seed: seq<nat>)
    requires xs != []
    ensures Shuffle(MapSeq(f, xs), seed)
            == [f(xs[Draw(seed, |xs|)])] + Shuffle(MapSeq(f, RemoveAt(xs, Draw(seed, |xs|))), Rest(seed))
  {
    MapSeqRemoveAt(f, xs, Draw(seed, |xs|));
    ShuffleStep(MapSeq(f, xs), seed);
  }

  lemma MapSeqCons<T, U>(f: T -> U, x: T, t: seq<T>)
    ensures MapSeq(f, [x] + t) == [f(x)] + MapSeq(f, t)
  {
    MapSeqAppend(f, [x], t);
    assert MapSeq(f, [x])[0] == f(x);
  }

  /** A sub-multiset of a duplicate-free sequence is duplicate-free. */
  lemma DistinctSub<T>(a: seq<T>, b: seq<T>)
    requires multiset(a) <= multiset(b)
    requires Distinct(b)
    ensures Distinct(a)
  {
    forall x | x in a ensures multiset(a)[x] <= 1 {
      assert multiset(a)[x] <= multiset(b)[x];
    }
  }

  /** `a` is `b` with some elements left out, the rest in their order. */
  ghost predicate Subsequence<T>(a: seq<T>, b: seq<T>)
    decreases |b|
  {
    if a == [] then true
    else if b == [] then false
    else (a[0] == b[0] && Subsequence(a[1..], b[1..])) || Subsequence(a, b[1..])
  }
}

=== FILE: entries.dfy ===
/** A vocabulary entry (`WordEntry`): four stored strings plus an identifier
    that every instance receives fresh and that is never part of the
    persisted form. Also the keyed-object form an entry is persisted as. */
module Entries {
  import opened Collections

  /** Stands for a `UUID` value; fresh ones are supplied by the caller. */
  type Uuid = nat

  /** `wordFunction` is the part of speech, stored under the key "function". */
  datatype Entry = Entry(id: Uuid, word: string, wordFunction: string, definition: string, example: string)

  /** A decoded JSON object whose values are strings. */
  type Object = map<string, string>

  /** The coding keys: exactly the four stored fields. */
  const CodingKeys: set<string> := {"word", "function", "definition", "example"}

  function WordOf(e: Entry): string {
    e.word
  }

  /** The word strings of a list of entries, in order. */
  function Words(es: seq<Entry>): (r: seq<string>)
    ensures |r| == |es|
    ensures forall i :: 0 <= i < |es| ==> r[i] == es[i].word
  {
    MapSeq(WordOf, es)
  }

  lemma WordsAppend(a: seq<Entry>, b: seq<Entry>)
    ensures Words(a + b) == Words(a) + Words(b)
  {
    MapSeqAppend(WordOf, a, b);
  }

  /** The persisted form of an entry: one value per coding key, no `id`. */
  function Encode(e: Entry): (o: Object)
    ensures o.Keys == CodingKeys
    ensures "id" !in o
    ensures o["word"] == e.word && o["function"] == e.wordFunction
    ensures o["definition"] == e.definition && o["example"] == e.example
  {
    map["word" := e.word, "function" := e.wordFunction,
        "definition" := e.definition, "example" := e.example]
  }

  /** Decoding an object: fails when a coding key is missing, ignores every
      other key (an `id` in particular), and gives the new instance the
      fresh identifier `id`. */
  function Decode(o: Object, id: Uuid): (r: Option<Entry>)
    ensures r.Some? <==> CodingKeys <= o.Keys
    ensures r.Some? ==> r.value.id == id
    ensures r.Some? ==> forall k :: k in CodingKeys ==> Encode(r.value)[k] == o[k]
  {
    if "word" in o && "function" in o && "definition" in o && "example" in o then
      Some(Entry(id, o["word"], o["function"], o["definition"], o["example"]))
    else
      None
  }

  /** Decoding an encoded entry gives back its four fields, under the fresh
      identifier the decoder assigns. */
  lemma DecodeEncode(e: Entry, id: Uuid)
    ensures Decode(Encode(e), id) == Some(e.(id := id))
  {
  }

  /** The identifier never reaches the persisted form. */
  lemma EncodeIgnoresId(e: Entry, id: Uuid)
    ensures Encode(e.(id := id)) == Encode(e)
  {
  }

  /** Two instances built from the same four strings are persisted
      identically but are distinct values when their identifiers differ,
      so collection identity cannot rest on the identifier. */
  lemma SameFieldsDifferentInstances(e: Entry, id: Uuid)
    requires id != e.id
    ensures Encode(e.(id := id)) == Encode(e) && e.(id := id) != e
  {
  }

  function EncodeAll(es: seq<Entry>): (os: seq<Object>)
    ensures |os| == |es|
    ensures forall i :: 0 <= i < |es| ==> os[i] == Encode(es[i])
  {
    MapSeq(Encode, es)
  }

  /** Decoding an array of objects (all or nothing); the `i`-th instance
      gets the fresh identifier `nextId + i`. */
  function DecodeAll(os: seq<Object>, nextId: Uuid): (r: Option<seq<Entry>>)
    ensures r.Some? <==> forall i :: 0 <= i < |os| ==> CodingKeys <= os[i].Keys
    ensures r.Some? ==> |r.value| == |os|
    ensures r.Some? ==> forall i :: 0 <= i < |os| ==> Some(r.value[i]) == Decode(os[i], nextId + i)
    decreases |os|
  {
    if os == [] then Some([])
    else
      match Decode(os[0], nextId)
      case None => None
      case Some(e) =>
        match DecodeAll(os[1..], nextId + 1)
        case None => None
        case Some(rest) => Some([e] + rest)
  }

  /** Round trip of a whole list: same length, same four fields at every
      position, fresh identifiers. */
  lemma DecodeAllEncodeAll(es: seq<Entry>, nextId: Uuid)
    ensures DecodeAll(EncodeAll(es), nextId).Some?
    ensures EncodeAll(DecodeAll(EncodeAll(es), nextId).value) == EncodeAll(es)
    ensures forall i :: 0 <= i < |es| ==> DecodeAll(EncodeAll(es), nextId).value[i] == es[i].(id := nextId + i)
  {
    var os := EncodeAll(es);
    forall i | 0 <= i < |os| ensures CodingKeys <= os[i].Keys {
    }
    var ds := DecodeAll(os, nextId).value;
    forall i | 0 <= i < |es| ensures ds[i] == es[i].(id := nextId + i) {
      DecodeEncode(es[i], nextId + i);
    }
  }

  /** Index of the first entry whose word equals `w` (case-sensitive), as
      `firstIndex(where: { $0.word == w })`. */
  function FirstIndexOfWord(es: seq<Entry>, w: string): (r: Option<nat>)
    ensures r.None? <==> forall j :: 0 <= j < |es| ==> es[j].word != w
    ensures r.Some? ==> r.value < |es| && es[r.value].word == w
    ensures r.Some? ==> forall j :: 0 <= j < r.value ==> es[j].word != w
    decreases |es|
  {
    if es == [] then None
    else if es[0].word == w then Some(0)
    else
      match FirstIndexOfWord(es[1..], w)
      case None => None
      case Some(k) => Some(k + 1)
  }
}

=== FILE: explore.dfy ===
/** The exploration engine (`ExploreWordsView`): a candidate list computed
    once from the catalog, a cursor walking it with Skip, Learn and Hide, and
    the persisted set of hidden words. */
module Explore {
  import opened Collections
  import opened Text
  import opened Entries
  import opened Persistence

  /** `getHiddenWords`: the stored hidden words as a set; empty when the key
      is missing or does not decode. */
  function HiddenWords(store: Store): (r: set<string>)
    ensures HiddenWordsKey !in store ==> r == {}
    ensures HiddenWordsKey in store && DecodeStrings(store[HiddenWordsKey]).None? ==> r == {}
    ensures HiddenWordsKey in store && DecodeStrings(store[HiddenWordsKey]).Some? ==>
              r == set w | w in DecodeStrings(store[HiddenWordsKey]).value
  {
    set w | w in LoadHiddenList(store)
  }

  /** `Array(getHiddenWords())`: the hidden set as an array, in some order
      (`orderSeed` stands for the unspecified iteration order of a Swift
      `Set`), each word once. */
  function HiddenArray(store: Store, orderSeed: seq<nat>): (r: seq<string>)
    ensures forall w :: w in r <==> w in HiddenWords(store)
    ensures Distinct(r)
  {
    var list := LoadHiddenList(store);
    var d := Dedup(list);
    var r := Shuffle(d, orderSeed);
    assert forall w :: w in r <==> w in multiset(d);
    DistinctSub(r, d);
    r
  }

  lemma DistinctAppend(s: seq<string>, w: string)
    requires Distinct(s) && w !in s
    ensures Distinct(s + [w])
  {
    var t := s + [w];
    forall x | x in t ensures multiset(t)[x] <= 1 {
      assert multiset(t) == multiset(s) + multiset{w};
      if x == w {
        assert w !in multiset(s);
      }
    }
  }

  lemma HiddenWordsOfSaved(store: Store, list: seq<string>)
    ensures HiddenWords(SaveHiddenList(store, list)) == set w | w in list
  {
  }

  /** `addToHiddenWords`: the hidden set as an array, written back with
      `word` appended only when `word` is not already hidden. */
  function AddToHiddenWords(store: Store, word: string, orderSeed: seq<nat>): (r: Store)
    ensures HiddenWords(r) == HiddenWords(store) + {word}
    ensures word in HiddenWords(store) ==> r == store
    ensures word !in HiddenWords(store) ==>
              HiddenWordsKey in r && r[HiddenWordsKey].Strings? && Distinct(r[HiddenWordsKey].strings)
    ensures forall k :: k in store && k != HiddenWordsKey ==> k in r && r[k] == store[k]
  {
    var current := HiddenArray(store, orderSeed);
    if word in current then
      AlreadyHidden(store, current, word);
      store
    else
      AppendHidden(store, current, word);
      SaveHiddenList(store, current + [word])
  }

  lemma AlreadyHidden(store: Store, current: seq<string>, word: string)
    requires forall w :: w in current <==> w in HiddenWords(store)
    requires word in current
    ensures HiddenWords(store) + {word} == HiddenWords(store)
  {
  }

  lemma AppendHidden(store: Store, current: seq<string>, word: string)
    requires forall w :: w in current <==> w in HiddenWords(store)
    requires Distinct(current) && word !in current
    ensures word !in HiddenWords(store)
    ensures HiddenWords(SaveHiddenList(store, current + [word])) == HiddenWords(store) + {word}
    ensures Distinct(current + [word])
  {
    DistinctAppend(current, word);
    HiddenWordsOfSaved(store, current + [word]);
  }

  /** The lower-cased words of the user's collection, and nothing else. */
  function UserWordSet(userWords: seq<Entry>): (r: set<string>)
    ensures forall e :: e in userWords ==> Lower(e.word) in r
    ensures forall w :: w in r ==> exists e :: e in userWords && Lower(e.word) == w
  {
    set e | e in userWords :: Lower(e.word)
  }

  /** A catalog entry is a candidate when its lower-cased word is neither
      owned nor hidden. */
  predicate Eligible(e: Entry, owned: set<string>, hidden: set<string>) {
    Lower(e.word) !in owned && Lower(e.word) !in hidden
  }

  /** The filter of `loadAvailableWords`. */
  function Candidates(catalog: seq<Entry>, owned: set<string>, hidden: set<string>): (r: seq<Entry>)
    ensures forall e :: e in r <==> e in catalog && Eligible(e, owned, hidden)
    ensures forall e :: multiset(r)[e] == if Eligible(e, owned, hidden) then multiset(catalog)[e] else 0
    decreases |catalog|
  {
    if catalog == [] then []
    else
      var head := if Eligible(catalog[0], owned, hidden) then [catalog[0]] else [];
      assert catalog == [catalog[0]] + catalog[1..];
      head + Candidates(catalog[1..], owned, hidden)
  }

  /** The candidates keep the catalog's order. */
  lemma {:induction false} CandidatesKeepOrder(catalog: seq<Entry>, owned: set<string>, hidden: set<string>)
    ensures Subsequence(Candidates(catalog, owned, hidden), catalog)
    decreases |catalog|
  {
    var r := Candidates(catalog, owned, hidden);
    if catalog != [] {
      CandidatesKeepOrder(catalog[1..], owned, hidden);
      var rest := Candidates(catalog[1..], owned, hidden);
      if Eligible(catalog[0], owned, hidden) {
        assert r == [catalog[0]] + rest;
        assert r[1..] == rest;
      } else {
        assert r == rest;
        if r != [] {
          assert Subsequence(r, catalog[1..]);
        }
      }
    }
  }

  /** The session state: the candidates left and the cursor. */
  datatype ExploreState = ExploreState(available: seq<Entry>, cursor: nat)

  /** The cursor is on an item, or the list is exhausted. */
  predicate Valid(s: ExploreState) {
    |s.available| == 0 || s.cursor < |s.available|
  }

  /** The entry on screen, if any. */
  function Presented(s: ExploreState): (p: Option<Entry>) {
    if s.cursor < |s.available| then Some(s.available[s.cursor]) else None
  }

  /** A new session: the candidates in catalog order, cursor on the first. */
  function Start(catalog: seq<Entry>, userWords: seq<Entry>, store: Store): (r: ExploreState)
    ensures Valid(r) && r.cursor == 0
    ensures r.available == Candidates(catalog, UserWordSet(userWords), HiddenWords(store))
    ensures forall e :: e in r.available <==>
              e in catalog && Lower(e.word) !in UserWordSet(userWords) && Lower(e.word) !in HiddenWords(store)
  {
    ExploreState(Candidates(catalog, UserWordSet(userWords), HiddenWords(store)), 0)
  }

  /** `skipWord`: on to the next item; past the last one the list is
      emptied (exhausted), never wrapped around. */
  function Skip(s: ExploreState): (r: ExploreState)
    ensures Valid(s) ==> Valid(r)
    ensures Presented(r) == if s.cursor + 1 < |s.available| then Some(s.available[s.cursor + 1]) else None
    ensures r.available == s.available || r.available == []
  {
    if s.cursor < |s.available| - 1 then s.(cursor := s.cursor + 1)
    else s.(available := [])
  }

  /** Skip applied `n` times. */
  function SkipTimes(s: ExploreState, n: nat): (r: ExploreState)
    decreases n
  {
    if n == 0 then s else SkipTimes(Skip(s), n - 1)
  }

  /** Repeated skipping visits the remaining candidates in order and then
      stays exhausted: it never returns to an earlier one. */
  lemma {:induction false} SkipWalk(s: ExploreState, n: nat)
    requires Valid(s)
    ensures s.cursor + n < |s.available| ==> SkipTimes(s, n) == s.(cursor := s.cursor + n)
    ensures s.cursor + n >= |s.available| ==> SkipTimes(s, n).available == []
    decreases n
  {
    if n > 0 {
      var t := Skip(s);
      SkipWalk(t, n - 1);
      if s.cursor + 1 >= |s.available| {
        assert t.available == [];
        SkipExhausted(t, n - 1);
      }
    }
  }

  /** An exhausted session stays exhausted. */
  lemma {:induction false} SkipExhausted(s: ExploreState, n: nat)
    requires s.available == []
    ensures SkipTimes(s, n).available == []
    decreases n
  {
    if n > 0 {
      SkipExhausted(Skip(s), n - 1);
    }
  }

  /** The shared bookkeeping of Learn and Hide: remove the item under the
      cursor and pull a cursor that fell off the end back to the new last
      index. */
  function RemoveCurrent(s: ExploreState): (r: ExploreState)
    requires s.cursor < |s.available|
    ensures Valid(r)
    ensures r.available == RemoveAt(s.available, s.cursor)
    ensures r.cursor <= s.cursor
    ensures r.cursor < s.cursor ==> s.cursor == |r.available| && r.cursor == |r.available| - 1
    ensures s.cursor < |r.available| ==> Presented(r) == Some(s.available[s.cursor + 1])
  {
    var rest := RemoveAt(s.available, s.cursor);
    if s.cursor >= |rest| && s.cursor > 0 then ExploreState(rest, |rest| - 1)
    else ExploreState(rest, s.cursor)
  }

  /** `addCurrentWord`: hands the entry under the cursor to the collection
      (the second component) and removes it from the list; a no-op when the
      cursor is not on an item. */
  function Learn(s: ExploreState): (r: (ExploreState, Option<Entry>))
    ensures r.1.Some? <==> s.cursor < |s.available|
    ensures r.1.Some? ==> r.1 == Presented(s)
    ensures r.1.Some? ==> |r.0.available| == |s.available| - 1
    ensures r.1.Some? ==> multiset(r.0.available) + multiset{r.1.value} == multiset(s.available)
    ensures r.1.Some? ==> Valid(r.0)
    ensures r.1.Some? ==> r.0 == RemoveCurrent(s)
    ensures r.1.None? ==> r.0 == s
    ensures Valid(s) ==> Valid(r.0)
  {
    if s.cursor < |s.available| then
      (RemoveCurrent(s), Some(s.available[s.cursor]))
    else
      (s, None)
  }

  /** `hideCurrentWord`: records the lower-cased word under the cursor as
      hidden and removes the item; nothing is handed to the collection
      (there is no such output). A no-op when the cursor is not on an item. */
  function Hide(s: ExploreState, store: Store, orderSeed: seq<nat>): (r: (ExploreState, Store))
    ensures s.cursor < |s.available| ==>
              HiddenWords(r.1) == HiddenWords(store) + {Lower(s.available[s.cursor].word)}
    ensures s.cursor < |s.available| ==>
              |r.0.available| == |s.available| - 1 &&
              multiset(r.0.available) + multiset{s.available[s.cursor]} == multiset(s.available)
    ensures s.cursor < |s.available| ==> r.0 == RemoveCurrent(s)
    ensures s.cursor >= |s.available| ==> r == (s, store)
    ensures HiddenWords(store) <= HiddenWords(r.1)
    ensures forall k :: k in store && k != HiddenWordsKey ==> k in r.1 && r.1[k] == store[k]
    ensures Valid(s) ==> Valid(r.0)
  {
    if s.cursor < |s.available| then
      var next := RemoveCurrent(s);
      assert multiset(next.available) + multiset{s.available[s.cursor]} == multiset(s.available) by {
        assert s.available[s.cursor] in multiset(s.available);
      }
      (next, AddToHiddenWords(store, Lower(s.available[s.cursor].word), orderSeed))
    else
      (s, store)
  }

  /** A hidden word is never presented by a later session. */
  lemma HiddenNotPresentedAgain(s: ExploreState, store: Store, orderSeed: seq<nat>,
                                catalog: seq<Entry>, userWords: seq<Entry>, e: Entry)
    requires s.cursor < |s.available|
    requires Lower(e.word) == Lower(s.available[s.cursor].word)
    ensures e !in Start(catalog, userWords, Hide(s, store, orderSeed).1).available
  {
  }
}

=== FILE: flows.dfy ===
/** Properties that span several parts of the app: what a later exploration
    session sees after Learn or Hide, what a reload sees after an add, and
    the quiz over a collection of distinct words. */
module Flows {
  import opened Collections
  import opened Text
  import opened Entries
  import opened Persistence
  import Explore
  import Study
  import Lexicon

  /** An entry adopted in one session (handed to `addWord`) is not offered
      by the next session, nor is any catalog entry spelled the same up to
      case. */
  lemma LearnedNotOfferedAgain(s: Explore.ExploreState, vm: Lexicon.ViewModel, store: Store,
                               catalog: seq<Entry>, c: Entry)
    requires Explore.Learn(s).1.Some?
    requires Lower(c.word) == Lower(Explore.Learn(s).1.value.word)
    ensures var added := Lexicon.AddWord(vm, store, Explore.Learn(s).1.value);
            c !in Explore.Start(catalog, added.0.userWords, added.1).available
  {
    var e := Explore.Learn(s).1.value;
    var added := Lexicon.AddWord(vm, store, e);
    assert e in added.0.userWords;
    assert Lower(e.word) in Explore.UserWordSet(added.0.userWords);
  }

  /** After an add, a reload of the view-model sees the new entry's four
      fields at the end of the list. */
  lemma ReloadSeesAddedWord(vm: Lexicon.ViewModel, store: Store, e: Entry, nextId: Uuid, roll: nat)
    ensures var added := Lexicon.AddWord(vm, store, e);
            var reloaded := Lexicon.LoadWords(added.1, nextId, roll);
            |reloaded.userWords| == |vm.userWords| + 1 &&
            Encode(reloaded.userWords[|vm.userWords|]) == Encode(e)
  {
    var added := Lexicon.AddWord(vm, store, e);
    var reloaded := Lexicon.LoadWords(added.1, nextId, roll);
    assert EncodeAll(reloaded.userWords) == EncodeAll(vm.userWords + [e]);
    assert |EncodeAll(reloaded.userWords)| == |reloaded.userWords|;
  }

  /** With four or more pairwise different user words, every question of
      the quiz has four different options, one of which is its answer. */
  lemma QuizOverDistinctWords(ws: seq<Entry>, dice: Study.Dice, q: Study.Question)
    requires |ws| >= Study.MinimumWords && Distinct(Words(ws))
    requires q in Study.GenerateQuestions(ws, dice)
    ensures |q.options| == 4 && Distinct(q.options)
    ensures q.correctAnswer in q.options
  {
    var i := Study.QuestionFromOneEntry(ws, dice, q);
    assert Words(ws)[i] == q.correctAnswer;
    Study.FourDistinctOptions(ws, q);
    assert q.correctAnswer in multiset(q.options);
  }
}

=== FILE: lexicon.dfy ===
/** The collection view-model (`LexiconViewModel`) and the delete path that
    the word manager triggers (`onDeleteWord` in `ContentView`). The two
    published lists `userWords` and `words` are kept in lockstep, and the
    displayed entry is one of the words, or nothing exactly when there are
    none. */
module Lexicon {
  import opened Collections
  import opened Entries
  import opened Persistence

  datatype ViewModel = ViewModel(
    words: seq<Entry>,
    currentEntry: Option<Entry>,
    isLoading: bool,
    userWords: seq<Entry>)

  predicate Consistent(vm: ViewModel) {
    && vm.userWords == vm.words
    && (vm.currentEntry.None? <==> vm.words == [])
    && (vm.currentEntry.Some? ==> vm.currentEntry.value in vm.words)
  }

  /** The freshly created view-model, before its first load. */
  function Initial(): (vm: ViewModel)
    ensures Consistent(vm) && vm.isLoading
  {
    ViewModel([], None, true, [])
  }

  /** `loadWords`: both lists become the persisted list (empty when the key
      is missing or does not decode) and a random one of them is shown. */
  function LoadWords(store: Store, nextId: Uuid, roll: nat): (vm: ViewModel)
    ensures Consistent(vm) && !vm.isLoading
    ensures vm.userWords == LoadUserWords(store, nextId)
    ensures UserWordsKey !in store ==> vm.words == []
    ensures UserWordsKey in store && DecodeEntries(store[UserWordsKey], nextId).None? ==> vm.words == []
    ensures forall es :: Persisted(store, es) ==> EncodeAll(vm.userWords) == EncodeAll(es)
  {
    var saved := LoadUserWords(store, nextId);
    forall es | Persisted(store, es) ensures EncodeAll(saved) == EncodeAll(es) {
      DecodeAllEncodeAll(es, nextId);
    }
    ViewModel(saved, PickOne(saved, roll), false, saved)
  }

  /** `shuffleWord`: a no-op on an empty list, otherwise some word is shown;
      the lists do not change. */
  function ShuffleWord(vm: ViewModel, roll: nat): (r: ViewModel)
    ensures vm.words == [] ==> r == vm
    ensures vm.words != [] ==> r.currentEntry.Some? && r.currentEntry.value in vm.words
    ensures r.words == vm.words && r.userWords == vm.userWords && r.isLoading == vm.isLoading
    ensures Consistent(vm) ==> Consistent(r)
  {
    if vm.words == [] then vm
    else vm.(currentEntry := PickOne(vm.words, roll))
  }

  /** `addWord`: appended to both lists (no duplicate check), persisted,
      and shown. */
  function AddWord(vm: ViewModel, store: Store, e: Entry): (r: (ViewModel, Store))
    ensures r.0.userWords == vm.userWords + [e] && r.0.words == vm.words + [e]
    ensures r.0.currentEntry == Some(e)
    ensures Persisted(r.1, r.0.userWords)
    ensures forall k :: k in store && k != UserWordsKey ==> k in r.1 && r.1[k] == store[k]
    ensures r.0.isLoading == vm.isLoading
    ensures Consistent(vm) ==> Consistent(r.0)
  {
    var vm' := vm.(userWords := vm.userWords + [e], words := vm.words + [e]);
    (vm'.(currentEntry := Some(e)), SaveUserWords(store, vm'.userWords))
  }

  /** Both lists without position `i`, as `userWords.remove(at: i)` and
      `words.remove(at: i)`. */
  function RemoveBoth(vm: ViewModel, i: nat): (r: ViewModel)
    requires i < |vm.userWords| && i < |vm.words|
    ensures r.userWords == RemoveAt(vm.userWords, i) && r.words == RemoveAt(vm.words, i)
    ensures r.currentEntry == vm.currentEntry && r.isLoading == vm.isLoading
  {
    vm.(userWords := RemoveAt(vm.userWords, i), words := RemoveAt(vm.words, i))
  }

  /** `deleteCurrentWord`: a no-op without a shown entry or when no user
      word equals its word (case-sensitive); otherwise the first user word
      equal to it goes from both lists, the list is persisted and a random
      remaining word is shown (nothing when none remains). `words` must be
      at least as long as `userWords`: `deleteCurrentWord` removes the same
      index from both lists. */
  function DeleteCurrentWord(vm: ViewModel, store: Store, roll: nat): (r: (ViewModel, Store))
    requires |vm.userWords| <= |vm.words|
    ensures vm.currentEntry.None? ==> r == (vm, store)
    ensures vm.currentEntry.Some? && FirstIndexOfWord(vm.userWords, vm.currentEntry.value.word).None? ==> r == (vm, store)
    ensures vm.currentEntry.Some? && FirstIndexOfWord(vm.userWords, vm.currentEntry.value.word).Some? ==>
              var i := FirstIndexOfWord(vm.userWords, vm.currentEntry.value.word).value;
              && r.0.userWords == RemoveAt(vm.userWords, i)
              && r.0.words == RemoveAt(vm.words, i)
              && Persisted(r.1, r.0.userWords)
              && (r.0.currentEntry.None? <==> r.0.words == [])
              && (r.0.currentEntry.Some? ==> r.0.currentEntry.value in r.0.words)
    ensures forall k :: k in store && k != UserWordsKey ==> k in r.1 && r.1[k] == store[k]
    ensures r.0.isLoading == vm.isLoading
    ensures Consistent(vm) ==> Consistent(r.0)
  {
    if vm.currentEntry.None? then (vm, store)
    else
      match FirstIndexOfWord(vm.userWords, vm.currentEntry.value.word)
      case None => (vm, store)
      case Some(i) =>
        var removed := RemoveBoth(vm, i);
        var store' := SaveUserWords(store, removed.userWords);
        (removed.(currentEntry := PickOne(removed.words, roll)), store')
  }

  /** The `onDeleteWord` closure: a no-op when no user word equals
      `entry.word`; otherwise the first such user word goes from both
      lists and the list is persisted. The shown entry is re-picked from
      what remains only when it carries the deleted word. */
  function DeleteWord(vm: ViewModel, store: Store, entry: Entry, roll: nat): (r: (ViewModel, Store))
    requires |vm.userWords| <= |vm.words|
    ensures FirstIndexOfWord(vm.userWords, entry.word).None? ==> r == (vm, store)
    ensures FirstIndexOfWord(vm.userWords, entry.word).Some? ==>
              var i := FirstIndexOfWord(vm.userWords, entry.word).value;
              && r.0.userWords == RemoveAt(vm.userWords, i)
              && r.0.words == RemoveAt(vm.words, i)
              && Persisted(r.1, r.0.userWords)
              && (vm.currentEntry.Some? && vm.currentEntry.value.word == entry.word ==>
                    (r.0.currentEntry.None? <==> r.0.words == []) &&
                    (r.0.currentEntry.Some? ==> r.0.currentEntry.value in r.0.words))
              && (!(vm.currentEntry.Some? && vm.currentEntry.value.word == entry.word) ==>
                    r.0.currentEntry == vm.currentEntry)
    ensures forall k :: k in store && k != UserWordsKey ==> k in r.1 && r.1[k] == store[k]
    ensures r.0.isLoading == vm.isLoading
    ensures Consistent(vm) ==> Consistent(r.0)
  {
    match FirstIndexOfWord(vm.userWords, entry.word)
    case None => (vm, store)
    case Some(i) =>
      var removed := RemoveBoth(vm, i);
      var store' := SaveUserWords(store, removed.userWords);
      if vm.currentEntry.Some? && vm.currentEntry.value.word == entry.word then
        (removed.(currentEntry := PickOne(removed.words, roll)), store')
      else
        KeepsShown(vm, i, entry.word);
        (removed, store')
  }

  /** The shown entry survives the removal of a word it does not carry. */
  lemma KeepsShown(vm: ViewModel, i: nat, w: string)
    requires Consistent(vm) ==> i < |vm.words| && vm.words[i].word == w
    requires i < |vm.userWords| && i < |vm.words|
    requires !(vm.currentEntry.Some? && vm.currentEntry.value.word == w)
    ensures Consistent(vm) ==> Consistent(RemoveBoth(vm, i))
  {
    if Consistent(vm) && vm.currentEntry.Some? {
      RemoveAtKeepsOthers(vm.words, i, vm.currentEntry.value);
    }
  }

  /** Removing a word occurring at most once leaves no entry with that word. */
  lemma RemoveOnlyCopy(us: seq<Entry>, i: nat)
    requires i < |us| && multiset(Words(us))[us[i].word] <= 1
    ensures FirstIndexOfWord(RemoveAt(us, i), us[i].word).None?
  {
    MapSeqRemoveAt(WordOf, us, i);
    var after := Words(RemoveAt(us, i));
    assert multiset(after)[us[i].word] == 0;
    forall j | 0 <= j < |after| ensures after[j] != us[i].word {
      assert after[j] in multiset(after);
    }
  }

  /** Deleting a word that occurs at most once is idempotent: the second
      delete finds nothing. With duplicates it is not, since each delete
      removes only the first copy. */
  lemma DeleteWordTwice(vm: ViewModel, store: Store, entry: Entry, roll: nat, roll': nat)
    requires |vm.userWords| <= |vm.words|
    requires multiset(Words(vm.userWords))[entry.word] <= 1
    ensures |DeleteWord(vm, store, entry, roll).0.userWords| <= |DeleteWord(vm, store, entry, roll).0.words|
    ensures var once := DeleteWord(vm, store, entry, roll);
            DeleteWord(once.0, once.1, entry, roll') == once
  {
    var once := DeleteWord(vm, store, entry, roll);
    match FirstIndexOfWord(vm.userWords, entry.word)
    case None =>
    case Some(i) =>
      RemoveOnlyCopy(vm.userWords, i);
  }
}

=== FILE: persistence.dfy ===
/** The key-value store (`UserDefaults`) seen through the JSON coder: a key
    holds an array of objects, an array of strings, or bytes that do not
    decode at all. Reading degrades every decoding failure, and a missing
    key, to an empty list. */
module Persistence {
  import opened Collections
  import opened Entries

  datatype Blob =
    | Objects(objects: seq<Object>)
    | Strings(strings: seq<string>)
    | Unreadable

  type Store = map<string, Blob>

  const UserWordsKey: string := "userWords"
  const HiddenWordsKey: string := "hiddenWords"

  /** Decoding `[Entry]`: an empty JSON array decodes as any array type, a
      non-empty string array or unreadable bytes do not. */
  function DecodeEntries(b: Blob, nextId: Uuid): (r: Option<seq<Entry>>)
    ensures b.Objects? ==> r == DecodeAll(b.objects, nextId)
    ensures b.Strings? ==> (r.Some? <==> b.strings == [])
    ensures b.Unreadable? ==> r.None?
  {
    match b
    case Objects(os) => DecodeAll(os, nextId)
    case Strings(ss) => if ss == [] then Some([]) else None
    case Unreadable => None
  }

  /** Decoding `[String]`, symmetric to `DecodeEntries`. */
  function DecodeStrings(b: Blob): (r: Option<seq<string>>)
    ensures b.Strings? ==> r == Some(b.strings)
    ensures b.Objects? ==> (r.Some? <==> b.objects == [])
    ensures b.Unreadable? ==> r.None?
  {
    match b
    case Strings(ss) => Some(ss)
    case Objects(os) => if os == [] then Some([]) else None
    case Unreadable => None
  }

  /** `loadUserWords`: the decoded list, or empty when the key is missing or
      its value does not decode. */
  function LoadUserWords(store: Store, nextId: Uuid): (r: seq<Entry>)
    ensures UserWordsKey !in store ==> r == []
    ensures UserWordsKey in store && DecodeEntries(store[UserWordsKey], nextId).None? ==> r == []
    ensures UserWordsKey in store && DecodeEntries(store[UserWordsKey], nextId).Some? ==>
              r == DecodeEntries(store[UserWordsKey], nextId).value
  {
    if UserWordsKey in store then DecodeEntries(store[UserWordsKey], nextId).GetOr([]) else []
  }

  /** `saveUserWords`: the whole list is written under one key. */
  function SaveUserWords(store: Store, es: seq<Entry>): (r: Store)
    ensures Persisted(r, es)
    ensures forall k :: k in store && k != UserWordsKey ==> k in r && r[k] == store[k]
    ensures r.Keys == store.Keys + {UserWordsKey}
  {
    store[UserWordsKey := Objects(EncodeAll(es))]
  }

  /** The store holds exactly the persisted form of `es` for the user words. */
  predicate Persisted(store: Store, es: seq<Entry>) {
    UserWordsKey in store && store[UserWordsKey] == Objects(EncodeAll(es))
  }

  /** A load after a save returns the saved list: same length and the same
      four fields at every position; only the identifiers are fresh. */
  lemma LoadAfterSave(store: Store, es: seq<Entry>, nextId: Uuid)
    ensures |LoadUserWords(SaveUserWords(store, es), nextId)| == |es|
    ensures EncodeAll(LoadUserWords(SaveUserWords(store, es), nextId)) == EncodeAll(es)
    ensures forall i :: 0 <= i < |es| ==>
              LoadUserWords(SaveUserWords(store, es), nextId)[i] == es[i].(id := nextId + i)
  {
    DecodeAllEncodeAll(es, nextId);
  }

  /** The hidden-word list as stored, or empty on a missing key or a
      decoding failure. */
  function LoadHiddenList(store: Store): (r: seq<string>)
    ensures HiddenWordsKey !in store ==> r == []
    ensures HiddenWordsKey in store && store[HiddenWordsKey].Strings? ==> r == store[HiddenWordsKey].strings
    ensures HiddenWordsKey in store && store[HiddenWordsKey].Unreadable? ==> r == []
  {
    if HiddenWordsKey in store then DecodeStrings(store[HiddenWordsKey]).GetOr([]) else []
  }

  function SaveHiddenList(store: Store, words: seq<string>): (r: Store)
    ensures HiddenWordsKey in r && r[HiddenWordsKey] == Strings(words)
    ensures forall k :: k in store && k != HiddenWordsKey ==> k in r && r[k] == store[k]
    ensures r.Keys == store.Keys + {HiddenWordsKey}
  {
    store[HiddenWordsKey := Strings(words)]
  }

  /** Writing the hidden words never disturbs the user words, and back. */
  lemma KeysIndependent(store: Store, es: seq<Entry>, words: seq<string>, nextId: Uuid)
    ensures LoadUserWords(SaveHiddenList(store, words), nextId) == LoadUserWords(store, nextId)
    ensures LoadHiddenList(SaveUserWords(store, es)) == LoadHiddenList(store)
  {
  }
}

=== FILE: study.dfy ===
/** The study quiz (`StudyModeView`): one multiple-choice question per user
    word, built from up to three distractors, shuffled; a session that
    records one answer per question and moves forward; and the per-option
    feedback shown once an answer is in. There is no score. */
module Study {
  import opened Collections
  import opened Entries

  datatype Question = Question(definition: string, correctAnswer: string, options: seq<string>)

  /** Fewer user words than this and no question is generated. */
  const MinimumWords: nat := 4

  /** At most this many wrong options per question. */
  const DistractorCount: nat := 3

  function AnswerOf(q: Question): string {
    q.correctAnswer
  }

  /** `userWords.filter { $0.word != w }`. */
  function Others(ws: seq<Entry>, w: string): (r: seq<Entry>)
    ensures forall e :: e in r ==> e in ws && e.word != w
    ensures forall e :: e in ws && e.word != w ==> e in r
    decreases |ws|
  {
    if ws == [] then []
    else if ws[0].word != w then [ws[0]] + Others(ws[1..], w)
    else Others(ws[1..], w)
  }

  /** Filtering out the entries with word `w` removes every occurrence of
      `w` from the word multiset and nothing else, so exactly as many
      entries go as the collection has copies of `w`. */
  lemma OthersWords(ws: seq<Entry>, w: string)
    ensures forall x :: multiset(Words(Others(ws, w)))[x] == if x == w then 0 else multiset(Words(ws))[x]
    ensures |Others(ws, w)| + multiset(Words(ws))[w] == |ws|
  {
    forall x ensures multiset(Words(Others(ws, w)))[x] == if x == w then 0 else multiset(Words(ws))[x] {
      OthersCount(ws, w, x);
    }
    OthersCount(ws, w, w);
    OthersLength(ws, w);
  }

  lemma WordsCons(ws: seq<Entry>)
    requires ws != []
    ensures Words(ws) == [ws[0].word] + Words(ws[1..])
  {
    assert ws == [ws[0]] + ws[1..];
    WordsAppend([ws[0]], ws[1..]);
  }

  /** One step of the filter, on words. */
  lemma OthersCons(ws: seq<Entry>, w: string)
    requires ws != []
    ensures Words(Others(ws, w)) == (if ws[0].word != w then [ws[0].word] else []) + Words(Others(ws[1..], w))
  {
    if ws[0].word != w {
      WordsAppend([ws[0]], Others(ws[1..], w));
    }
  }

  lemma {:induction false} OthersCount(ws: seq<Entry>, w: string, x: string)
    ensures multiset(Words(Others(ws, w)))[x] == if x == w then 0 else multiset(Words(ws))[x]
    decreases |ws|
  {
    if ws != [] {
      OthersCount(ws[1..], w, x);
      WordsCons(ws);
      OthersCons(ws, w);
    }
  }

  lemma {:induction false} OthersLength(ws: seq<Entry>, w: string)
    ensures |Others(ws, w)| + multiset(Words(ws))[w] == |ws|
    decreases |ws|
  {
    if ws != [] {
      OthersLength(ws[1..], w);
      WordsCons(ws);
      assert |Others(ws, w)| == |Words(Others(ws, w))|;
      OthersCons(ws, w);
    }
  }

  /** The distractor words of a question: a sub-multiset of the words of
      the other entries. */
  lemma DistractorWords(ws: seq<Entry>, w: string, seed: seq<nat>)
    ensures multiset(Words(Take(Shuffle(Others(ws, w), seed), DistractorCount)))
            <= multiset(Words(Others(ws, w)))
  {
    var others := Others(ws, w);
    var shuffled := Shuffle(others, seed);
    var picked := Take(shuffled, DistractorCount);
    assert Words(picked) == Take(Words(shuffled), DistractorCount) by {
      MapSeqPrefix(WordOf, shuffled, |picked|);
    }
    assert Words(shuffled) == Shuffle(Words(others), seed) by {
      ShuffleMap(WordOf, others, seed);
    }
  }

  /** The question for entry `e`: its definition, its word as the answer,
      and the answer plus up to three words of other entries, shuffled. */
  function MakeQuestion(ws: seq<Entry>, e: Entry, distractorSeed: seq<nat>, optionSeed: seq<nat>): (q: Question)
    ensures q.definition == e.definition && q.correctAnswer == e.word
    ensures WellFormed(ws, q)
  {
    var picked := Take(Shuffle(Others(ws, e.word), distractorSeed), DistractorCount);
    var q := Question(e.definition, e.word, Shuffle([e.word] + Words(picked), optionSeed));
    OptionsWellFormed(ws, e.word, distractorSeed, q.options);
    q
  }

  lemma OptionsWellFormed(ws: seq<Entry>, w: string, distractorSeed: seq<nat>, options: seq<string>)
    requires multiset(options) ==
             multiset([w] + Words(Take(Shuffle(Others(ws, w), distractorSeed), DistractorCount)))
    ensures WellFormed(ws, Question([], w, options))
  {
    var others := Others(ws, w);
    var picked := Take(Shuffle(others, distractorSeed), DistractorCount);
    DistractorWords(ws, w, distractorSeed);
    OthersWords(ws, w);
    assert multiset(options) == multiset{w} + multiset(Words(picked));
    assert multiset([w] + Words(others)) == multiset{w} + multiset(Words(others));
    assert multiset(Words(picked))[w] == 0;
    assert |options| == |multiset(options)| == 1 + |picked|;
  }

  /** What every generated question satisfies: the answer occurs exactly
      once among the options; the other options are words of entries with a
      different word, none used more often than it occurs; and there are
      `1 + min(3, number of such entries)` options. */
  ghost predicate WellFormed(ws: seq<Entry>, q: Question) {
    var others := Others(ws, q.correctAnswer);
    && multiset(q.options)[q.correctAnswer] == 1
    && multiset(q.options) <= multiset([q.correctAnswer] + Words(others))
    && |q.options| == 1 + (if |others| < DistractorCount then |others| else DistractorCount)
  }

  /** When the user words are pairwise different, a question for one of
      them has exactly four options, all different. */
  lemma FourDistinctOptions(ws: seq<Entry>, q: Question)
    requires WellFormed(ws, q)
    requires q.correctAnswer in Words(ws)
    requires Distinct(Words(ws)) && |ws| >= MinimumWords
    ensures |q.options| == 4 && Distinct(q.options)
  {
    var w := q.correctAnswer;
    var others := Others(ws, w);
    assert |others| == |ws| - 1 by {
      assert w in multiset(Words(ws));
      OthersLength(ws, w);
    }
    var full := [w] + Words(others);
    forall x | x in full ensures multiset(full)[x] <= 1 {
      OthersCount(ws, w, x);
      assert multiset(full)[x] == multiset([w])[x] + multiset(Words(others))[x];
      if x != w && multiset(Words(others))[x] > 0 {
        assert x in Words(ws) by {
          assert x in multiset(Words(ws));
        }
      }
    }
    DistinctSub(q.options, full);
  }

  /** The random choices of one generation: a distractor shuffle and an
      option shuffle per entry, and the shuffle of the question list. */
  datatype Dice = Dice(distractorSeeds: seq<seq<nat>>, optionSeeds: seq<seq<nat>>, orderSeed: seq<nat>)

  function SeedAt(seeds: seq<seq<nat>>, i: nat): (seed: seq<nat>) {
    if i < |seeds| then seeds[i] else []
  }

  /** `userWords.map { ... }`: one question per entry, in entry order. */
  function QuestionsInEntryOrder(ws: seq<Entry>, dice: Dice): (qs: seq<Question>)
    ensures |qs| == |ws|
    ensures forall i :: 0 <= i < |ws| ==>
              qs[i].definition == ws[i].definition && qs[i].correctAnswer == ws[i].word && WellFormed(ws, qs[i])
  {
    seq(|ws|, i requires 0 <= i < |ws| =>
      MakeQuestion(ws, ws[i], SeedAt(dice.distractorSeeds, i), SeedAt(dice.optionSeeds, i)))
  }

  /** `generateQuestions`: nothing below four words; otherwise one question
      per user word, in some order. */
  function GenerateQuestions(ws: seq<Entry>, dice: Dice): (qs: seq<Question>)
    ensures |ws| < MinimumWords ==> qs == []
    ensures |ws| >= MinimumWords ==> |qs| == |ws|
    ensures |ws| >= MinimumWords ==> multiset(qs) == multiset(QuestionsInEntryOrder(ws, dice))
    ensures forall q :: q in qs ==> WellFormed(ws, q)
  {
    if |ws| < MinimumWords then []
    else
      var inOrder := QuestionsInEntryOrder(ws, dice);
      var qs := Shuffle(inOrder, dice.orderSeed);
      assert forall q :: q in qs ==> q in inOrder by {
        forall q | q in qs ensures q in inOrder {
          assert q in multiset(qs);
        }
      }
      qs
  }

  /** Every generated question takes its definition and its answer from
      one and the same user entry; the lemma names that entry. */
  lemma QuestionFromOneEntry(ws: seq<Entry>, dice: Dice, q: Question) returns (i: nat)
    requires q in GenerateQuestions(ws, dice)
    ensures i < |ws| && q.definition == ws[i].definition && q.correctAnswer == ws[i].word
  {
    var inOrder := QuestionsInEntryOrder(ws, dice);
    var qs := GenerateQuestions(ws, dice);
    assert |ws| >= MinimumWords;
    assert q in multiset(inOrder) by {
      assert q in multiset(qs);
    }
    i := IndexOf(inOrder, q);
  }

  /** The correct answers of a generated quiz are the user words, each as
      often as it occurs in the collection. */
  lemma AnswersAreTheUserWords(ws: seq<Entry>, dice: Dice)
    requires |ws| >= MinimumWords
    ensures multiset(MapSeq(AnswerOf, GenerateQuestions(ws, dice))) == multiset(Words(ws))
  {
    var inOrder := QuestionsInEntryOrder(ws, dice);
    ShuffleMap(AnswerOf, inOrder, dice.orderSeed);
    AnswersInEntryOrder(ws, dice);
  }

  lemma AnswersInEntryOrder(ws: seq<Entry>, dice: Dice)
    ensures MapSeq(AnswerOf, QuestionsInEntryOrder(ws, dice)) == Words(ws)
  {
  }

  /** The session state of the view. `presented` goes false when the last
      question is finished. */
  datatype Session = Session(
    questions: seq<Question>,
    index: nat,
    current: Option<Question>,
    selected: Option<string>,
    showingResult: bool,
    isCorrect: bool,
    presented: bool)

  /** The current question is the one at the index; a shown result belongs
      to a recorded answer, judged against the current question. */
  predicate Consistent(s: Session) {
    && (s.questions == [] ==> s.current.None? && s.index == 0)
    && (s.questions != [] ==> s.index < |s.questions| && s.current == Some(s.questions[s.index]))
    && (s.showingResult ==>
          s.current.Some? && s.selected.Some? &&
          (s.isCorrect <==> s.selected.value == s.current.value.correctAnswer))
  }

  /** Before the view appears: no questions, nothing selected. */
  function Initial(): (s: Session)
    ensures Consistent(s) && s.questions == [] && s.presented && !s.showingResult
  {
    Session([], 0, None, None, false, false, true)
  }

  /** The view appearing: questions generated, the first one current. */
  function Begin(ws: seq<Entry>, dice: Dice): (s: Session)
    ensures Consistent(s) && s.presented && !s.showingResult && s.selected.None?
    ensures |ws| < MinimumWords ==> s.questions == [] && s.current.None?
    ensures |ws| >= MinimumWords ==> |s.questions| == |ws| && s.index == 0 && s.current == Some(s.questions[0])
    ensures |ws| >= MinimumWords ==> s.questions == GenerateQuestions(ws, dice)
  {
    if |ws| < MinimumWords then Initial()
    else
      var qs := GenerateQuestions(ws, dice);
      Initial().(questions := qs, index := 0, current := Some(qs[0]))
  }

  /** `selectAnswer`: records the answer and shows the result; a no-op
      without a current question. */
  function SelectAnswer(s: Session, answer: string): (r: Session)
    ensures s.current.None? ==> r == s
    ensures s.current.Some? ==>
              && r.selected == Some(answer) && r.showingResult
              && (r.isCorrect <==> answer == s.current.value.correctAnswer)
              && r.questions == s.questions && r.index == s.index && r.current == s.current
              && r.presented == s.presented
    ensures Consistent(s) ==> Consistent(r)
  {
    if s.current.None? then s
    else s.(selected := Some(answer), isCorrect := answer == s.current.value.correctAnswer, showingResult := true)
  }

  /** Tapping an option: the buttons are disabled while a result is shown,
      so a tap counts only while none is. */
  function Tap(s: Session, option: string): (r: Session)
    ensures s.showingResult ==> r == s
    ensures !s.showingResult && s.current.Some? ==>
              && r.selected == Some(option) && r.showingResult
              && (r.isCorrect <==> option == s.current.value.correctAnswer)
              && r.questions == s.questions && r.index == s.index && r.current == s.current
    ensures !s.showingResult ==> r == SelectAnswer(s, option)
    ensures r.presented == s.presented
    ensures s.current.None? ==> r == s
    ensures Consistent(s) ==> Consistent(r)
  {
    if s.showingResult then s else SelectAnswer(s, option)
  }

  /** Only the first tap on a question counts: a second one changes nothing. */
  lemma SecondTapIgnored(s: Session, first: string, second: string)
    requires s.current.Some?
    ensures Tap(Tap(s, first), second) == Tap(s, first)
  {
  }

  /** `nextQuestion`: before the last question, on to the next with the
      answer cleared; on the last, the session closes in place. */
  function NextQuestion(s: Session): (r: Session)
    ensures s.index + 1 < |s.questions| ==>
              && r.index == s.index + 1 && r.current == Some(s.questions[r.index])
              && r.selected.None? && !r.showingResult
              && r.questions == s.questions && r.presented == s.presented
    ensures s.index + 1 >= |s.questions| ==> r == s.(presented := false)
    ensures Consistent(s) ==> Consistent(r)
  {
    if s.index < |s.questions| - 1 then
      s.(index := s.index + 1, current := Some(s.questions[s.index + 1]), selected := None, showingResult := false)
    else
      s.(presented := false)
  }

  /** The colour class of an option button. */
  datatype Feedback = Neutral | Right | Wrong

  /** The intended colouring: before a result everything is neutral; after
      it the correct option is right, a wrongly chosen option wrong, and
      every other option neutral. */
  function Intended(s: Session, option: string): (f: Feedback) {
    if !s.showingResult || s.current.None? then Neutral
    else if option == s.current.value.correctAnswer then Right
    else if s.selected == Some(option) then Wrong
    else Neutral
  }

  /** `buttonBackgroundColor` and `buttonBorderColor` (the same rule with
      different concrete colours). */
  function SelectionFeedback(s: Session, option: string): (f: Feedback)
    ensures Consistent(s) ==> f == Intended(s, option)
    ensures !s.showingResult ==> f == Neutral
  {
    if !s.showingResult || s.selected.None? then Neutral
    else if option == s.selected.value then (if s.isCorrect then Right else Wrong)
    else if s.current.Some? && option == s.current.value.correctAnswer then Right
    else Neutral
  }

  /** `buttonTextColor`. */
  function TextFeedback(s: Session, option: string): (f: Feedback)
    ensures Consistent(s) ==> f == Intended(s, option)
    ensures !s.showingResult ==> f == Neutral
  {
    if !s.showingResult then Neutral
    else if s.current.Some? && option == s.current.value.correctAnswer then Right
    else if s.selected == Some(option) && !s.isCorrect then Wrong
    else Neutral
  }
}

=== FILE: text.dfy ===
/** Text normalisation used by the add-word form and by the exploration
    filter. Foundation's Unicode `lowercased()` and
    `trimmingCharacters(in: .whitespacesAndNewlines)` are approximated: case
    mapping covers ASCII letters only, and the whitespace class is the ASCII
    spaces and line breaks plus NEL and NO-BREAK SPACE. */
module Text {

  predicate IsSpace(c: char) {
    c == ' ' || c == '\t' || c == '\n' || c == '\r' ||
    c == '\U{000B}' || c == '\U{000C}' || c == '\U{0085}' || c == '\U{00A0}'
  }

  predicate AllSpace(s: string) {
    forall i :: 0 <= i < |s| ==> IsSpace(s[i])
  }

  /** Neither end of `s` is whitespace. */
  predicate IsTrimmed(s: string) {
    s == [] || (!IsSpace(s[0]) && !IsSpace(s[|s| - 1]))
  }

  predicate IsUpper(c: char) {
    'A' <= c <= 'Z'
  }

  /** No character of `s` is an upper-case letter. */
  predicate NoUpper(s: string) {
    forall i :: 0 <= i < |s| ==> !IsUpper(s[i])
  }

  /** Drops leading whitespace: the result is a suffix of `s`, everything cut
      off is whitespace, and the result does not start with whitespace. */
  function TrimStart(s: string): (r: string)
    ensures |r| <= |s| && r == s[|s| - |r|..]
    ensures AllSpace(s[..|s| - |r|])
    ensures r == [] || !IsSpace(r[0])
  {
    if s != [] && IsSpace(s[0]) then TrimStart(s[1..]) else s
  }

  /** Drops trailing whitespace: the result is a prefix of `s`, everything cut
      off is whitespace, and the result does not end with whitespace. */
  function TrimEnd(s: string): (r: string)
    ensures |r| <= |s| && r == s[..|r|]
    ensures AllSpace(s[|r|..])
    ensures r == [] || !IsSpace(r[|r| - 1])
  {
    if s != [] && IsSpace(s[|s| - 1]) then TrimEnd(s[..|s| - 1]) else s
  }

  /** `trimmingCharacters(in: .whitespacesAndNewlines)`: trimmed at both
      ends; TrimBounds says which slice of `s` it is. */
  function Trim(s: string): (r: string)
    ensures |r| <= |s|
    ensures IsTrimmed(r)
  {
    var a := TrimStart(s);
    var r := TrimEnd(a);
    assert IsTrimmed(r) by {
      if r != [] {
        assert r[0] == a[0];
      }
    }
    r
  }

  /** The trimmed text is the slice `s[i..j]`, and everything cut off on
      either side is whitespace. */
  lemma TrimBounds(s: string) returns (i: nat, j: nat)
    ensures i <= j <= |s| && Trim(s) == s[i..j]
    ensures AllSpace(s[..i]) && AllSpace(s[j..])
  {
    var a := TrimStart(s);
    var r := TrimEnd(a);
    i := |s| - |a|;
    j := i + |r|;
    assert r == s[i..j] by {
      assert a == s[i..];
    }
    assert AllSpace(s[j..]) by {
      assert s[j..] == a[|r|..];
    }
  }

  /** Trimming removes everything exactly when the text is all whitespace. */
  lemma TrimEmptyIffAllSpace(s: string)
    ensures Trim(s) == [] <==> AllSpace(s)
  {
    var i, j := TrimBounds(s);
    if Trim(s) == [] {
      assert i == j;
      forall k | 0 <= k < |s| ensures IsSpace(s[k]) {
        if k < i {
          assert s[k] == s[..i][k];
        } else {
          assert s[k] == s[j..][k - j];
        }
      }
    }
  }

  lemma TrimStartOfTrimmed(s: string)
    requires s == [] || !IsSpace(s[0])
    ensures TrimStart(s) == s
  {
  }

  lemma TrimEndOfTrimmed(s: string)
    requires s == [] || !IsSpace(s[|s| - 1])
    ensures TrimEnd(s) == s
  {
  }

  /** A trimmed text is left as it is. */
  lemma TrimOfTrimmed(s: string)
    requires IsTrimmed(s)
    ensures Trim(s) == s
  {
    TrimStartOfTrimmed(s);
    TrimEndOfTrimmed(s);
  }

  /** Trimming twice is trimming once. */
  lemma TrimIdempotent(s: string)
    ensures Trim(Trim(s)) == Trim(s)
  {
    TrimOfTrimmed(Trim(s));
  }

  function LowerChar(c: char): (d: char)
    ensures !IsUpper(d)
    ensures IsSpace(d) <==> IsSpace(c)
    ensures !IsUpper(c) ==> d == c
  {
    if IsUpper(c) then (c as int + 32) as char else c
  }

  /** `lowercased()`: same length, position by position the lower-case form,
      and no upper-case letter remains. */
  function Lower(s: string): (r: string)
    ensures |r| == |s|
    ensures forall i :: 0 <= i < |s| ==> r[i] == LowerChar(s[i])
    ensures NoUpper(r)
  {
    seq(|s|, i requires 0 <= i < |s| => LowerChar(s[i]))
  }

  /** A text without upper-case letters is left as it is. */
  lemma LowerOfLower(s: string)
    requires NoUpper(s)
    ensures Lower(s) == s
  {
  }

  /** Lowering twice is lowering once. */
  lemma LowerIdempotent(s: string)
    ensures Lower(Lower(s)) == Lower(s)
  {
    LowerOfLower(Lower(s));
  }

  /** Case mapping never turns a letter into whitespace or back, so a
      trimmed text stays trimmed and non-empty text stays non-empty. */
  lemma LowerKeepsTrimmed(s: string)
    requires IsTrimmed(s)
    ensures IsTrimmed(Lower(s))
    ensures Lower(s) == [] <==> s == []
  {
  }
}

=== FILE: widget.dfy ===
/** The home-screen widget's provider (`LexiconWidget`): it reads the user
    words from the store, shows a random one or a fixed fallback, and
    builds a two-hour timeline of entries five minutes apart. */
module Widget {
  import opened Collections
  import opened Entries
  import opened Persistence

  const FallbackWord: string := "lexicon"
  const FallbackFunction: string := "noun"
  const FallbackDefinition: string := "The vocabulary of a person, language, or branch of knowledge."

  /** The entry shown when the user has no words. */
  function Fallback(id: Uuid): (e: Entry) {
    Entry(id, FallbackWord, FallbackFunction, FallbackDefinition, "Add words to your vocabulary to see them here.")
  }

  /** `placeholder`: the same word, with a different example sentence. */
  function Placeholder(id: Uuid): (e: Entry)
    ensures e.word == FallbackWord && e.wordFunction == FallbackFunction && e.definition == FallbackDefinition
    ensures Encode(e) != Encode(Fallback(id))
  {
    var e := Entry(id, FallbackWord, FallbackFunction, FallbackDefinition,
                   "The technical lexicon of computer science can be challenging for beginners.");
    assert |e.example| != |Fallback(id).example|;
    e
  }

  /** `getRandomUserWord`: one of the stored user words, or the fallback
      when there are none (missing key and decoding failure included). */
  function RandomUserWord(store: Store, nextId: Uuid, roll: nat, fallbackId: Uuid): (e: Entry)
    ensures LoadUserWords(store, nextId) != [] ==> e in LoadUserWords(store, nextId)
    ensures LoadUserWords(store, nextId) == [] ==> e == Fallback(fallbackId)
    ensures UserWordsKey !in store ==> e == Fallback(fallbackId)
  {
    PickOne(LoadUserWords(store, nextId), roll).GetOr(Fallback(fallbackId))
  }

  /** Every stored user word can be the one shown. */
  lemma EveryUserWordCanBeShown(store: Store, nextId: Uuid, fallbackId: Uuid, i: nat)
    requires i < |LoadUserWords(store, nextId)|
    ensures RandomUserWord(store, nextId, i, fallbackId) == LoadUserWords(store, nextId)[i]
  {
    PickOneReachesAll(LoadUserWords(store, nextId), i);
  }

  /** WidgetKit's reload policies. */
  datatype ReloadPolicy = AtEnd | Never | After(minute: int)

  /** A timeline entry, its date kept as the minute offset from now. */
  datatype TimedEntry = TimedEntry(minuteOffset: int, entry: Entry)

  datatype Timeline = Timeline(entries: seq<TimedEntry>, policy: ReloadPolicy)

  const HorizonMinutes: int := 120
  const StepMinutes: int := 5

  /** The entry shown at a timeline slot is a user word or the fallback. */
  predicate Shows(store: Store, nextId: Uuid, fallbackId: Uuid, t: TimedEntry) {
    var words := LoadUserWords(store, nextId);
    if words == [] then t.entry == Fallback(fallbackId) else t.entry in words
  }

  /** `getTimeline`: one entry per `stride(from: 0, to: 120, by: 5)` offset,
      each with its own random pick (`rolls`), reloaded at the end. */
  method GetTimeline(store: Store, nextId: Uuid, fallbackId: Uuid, rolls: seq<nat>) returns (t: Timeline)
    ensures |t.entries| == 24
    ensures forall i :: 0 <= i < |t.entries| ==> t.entries[i].minuteOffset == StepMinutes * i
    ensures forall i :: 0 <= i < |t.entries| ==> 0 <= t.entries[i].minuteOffset < HorizonMinutes
    ensures forall i, j :: 0 <= i < j < |t.entries| ==> t.entries[i].minuteOffset < t.entries[j].minuteOffset
    ensures forall i :: 0 <= i < |t.entries| ==> Shows(store, nextId, fallbackId, t.entries[i])
    ensures t.policy == AtEnd
  {
    var entries: seq<TimedEntry> := [];
    var minuteOffset := 0;
    while minuteOffset < HorizonMinutes
      invariant 0 <= minuteOffset <= HorizonMinutes
      invariant minuteOffset == StepMinutes * |entries|
      invariant forall i :: 0 <= i < |entries| ==> entries[i].minuteOffset == StepMinutes * i
      invariant forall i :: 0 <= i < |entries| ==> Shows(store, nextId, fallbackId, entries[i])
      decreases HorizonMinutes - minuteOffset
    {
      var roll := if |entries| < |rolls| then rolls[|entries|] else 0;
      var word := RandomUserWord(store, nextId, roll, fallbackId);
      entries := entries + [TimedEntry(minuteOffset, word)];
      minuteOffset := minuteOffset + StepMinutes;
    }
    t := Timeline(entries, AtEnd);
  }
}
